=== FILE: README.md ===
# Kafdrop's Curator Kafka monitor, modelled in Dafny

This project models the sequential core of kafdrop's `CuratorKafkaMonitor`. That is the part that sits between the ZooKeeper (Curator) cache callbacks and the Kafka RPC calls. It has four pieces:

- **The broker table** (`brokerCache`, a `TreeMap` from broker id to broker).
  - `BrokerListener.childEvent` keeps it in step with the `/brokers/ids` children: CHILD_ADDED, CHILD_UPDATED, CHILD_REMOVED and INITIALIZED.
  - After each event the controller flag of every broker is recomputed from the controller node.
  - `broker_table.dfy` states the transitions as functions on values (`Step`, `Replay`).
  - `monitor.dfy` performs them in place, on the `brokerCache` field of the class `CuratorKafkaMonitor`. Each method is proved to agree with `Step` and to keep every broker stored under its own id.
- **The initialization barrier.**
  - `cacheInitCounter` starts at 4.
  - Each of the four caches' INITIALIZED listeners decrements it.
  - `validateInitialized` refuses every read while it is positive.
- **Broker id parsing and broker selection.**
  - `brokerId` is `StringUtils.substringAfter` followed by `Integer.parseInt`, with Java's `int` range and error cases (`broker_path.dfy`).
  - `randomBroker` / `brokerChannel` choose an explicit broker or any broker in the table.
  - `getBrokers` / `getBroker` are the reads.
  - `getTopics` / `getTopic` are the gated reads. The metadata they fetch is an input.
- **The cluster summary** (`cluster_summary.dfy`).
  - `getClusterSummary` maps every topic to a summary and reduces the summaries pairwise.
  - The model reduces exactly as the code does. That includes the reducer dropping the second summary's expected broker ids (see Findings).

Exceptions are values: `Outcome.Fail` for a listener call, `Result.Failure` for a read, with the `MonitorError` kinds in `errors.dfy`. Curator events and the decoded Jackson payloads are method arguments. The controller node's payload is an `Option<int>`; `None` means the node is absent or its payload does not decode.

Behaviour of the code that the model keeps:

- Removing a broker that is not in the table: `removeBroker` logs `broker.getId()` on the `null` it got back, so the call throws. The table stays unchanged and the trailing controller recompute is skipped.
- The countdown is decremented on every INITIALIZED event, so repeated events can take it below zero. The gate only tests `> 0`.
- An event whose branch throws (a bad path, an undecodable payload, the removal above) skips `updateController()`. An INITIALIZED event stops at the first snapshot entry that fails to parse, and the entries before it stay added.

## Model

| member | source | states |
|---|---|---|
| BrokerPath.IndexFrom | src/main/java/com/homeadvisor/kafdrop/service/CuratorKafkaMonitor.java:188 | the search from a start index finds only an occurrence of the separator at or after that index (IndexFromIsFirst: the first one) |
| BrokerPath.IndexOf | src/main/java/com/homeadvisor/kafdrop/service/CuratorKafkaMonitor.java:188 | indexOf finds only an occurrence of the separator (IndexFromIsFirst: the first one, and None only when there is none) |
| BrokerPath.IndexFromIsFirst | src/main/java/com/homeadvisor/kafdrop/service/CuratorKafkaMonitor.java:188 | the occurrence of the separator that the search finds is the first one at or after the start index; when the search finds none, there is none at all |
| BrokerPath.SubstringAfter | src/main/java/com/homeadvisor/kafdrop/service/CuratorKafkaMonitor.java:188 | substringAfter is never longer than its input and is empty when the separator does not occur (SubstringAfterSplits: the exact text after the first occurrence) |
| BrokerPath.SubstringAfterSplits | src/main/java/com/homeadvisor/kafdrop/service/CuratorKafkaMonitor.java:188 | substringAfter yields the text after the first occurrence of the separator, and the empty string when the separator does not occur |
| BrokerPath.DigitsValue | src/main/java/com/homeadvisor/kafdrop/service/CuratorKafkaMonitor.java:188 | a digit string has a decimal value exactly when every character is a digit |
| BrokerPath.ParseInt | src/main/java/com/homeadvisor/kafdrop/service/CuratorKafkaMonitor.java:188 | parseInt fails on the empty string; every failure is a NumberFormatException carrying the text; a success lies in the Java int range and is negative only after a minus sign |
| BrokerPath.ParseIntAcceptsOnlyDigits | src/main/java/com/homeadvisor/kafdrop/service/CuratorKafkaMonitor.java:188 | whatever parses is one sign or digit followed by digits only |
| BrokerPath.BrokerId | src/main/java/com/homeadvisor/kafdrop/service/CuratorKafkaMonitor.java:187-189 | a path without "/brokers/ids/" fails to parse as the empty string; a parsed id is a Java int (the listener's copy at :350-352 is the same function) |
| BrokerPath.DecimalValue | src/main/java/com/homeadvisor/kafdrop/service/CuratorKafkaMonitor.java:188 | the digits of a canonical decimal numeral have that numeral's value |
| BrokerPath.ParseIntDecimal | src/main/java/com/homeadvisor/kafdrop/service/CuratorKafkaMonitor.java:188 | parsing the numeral of n gives n back when n fits an int, and a NumberFormatException otherwise |
| BrokerPath.ParseIntNegative | src/main/java/com/homeadvisor/kafdrop/service/CuratorKafkaMonitor.java:188 | "-" before the numeral of n parses to -n down to the int minimum, and fails below it |
| BrokerPath.BrokerIdRoundTrip | src/main/java/com/homeadvisor/kafdrop/service/CuratorKafkaMonitor.java:187-189 | brokerId of "/brokers/ids/" followed by the decimal numeral of any n from 0 to the int maximum is n |
| BrokerTable.ParseBroker | src/main/java/com/homeadvisor/kafdrop/service/CuratorKafkaMonitor.java:354-362 | an undecodable payload fails first, then a bad path fails with the path's parse error; a parsed broker carries the id parsed from its path and the payload's host, port and controller flag |
| BrokerTable.Put | src/main/java/com/homeadvisor/kafdrop/service/CuratorKafkaMonitor.java:191-195 | put adds the broker's id to the keys and maps it to the broker; every other entry is unchanged |
| BrokerTable.SetControllerFlags | src/main/java/com/homeadvisor/kafdrop/service/CuratorKafkaMonitor.java:167-170 | afterwards a broker is flagged exactly when its id is the controller's; keys, ids, hosts and ports are unchanged |
| BrokerTable.Recompute | src/main/java/com/homeadvisor/kafdrop/service/CuratorKafkaMonitor.java:153-165 | the recompute changes only controller flags; with a controller id the flags follow it; without one (node absent or undecodable) the table is unchanged |
| BrokerTable.ParseAll | src/main/java/com/homeadvisor/kafdrop/service/CuratorKafkaMonitor.java:340-343 | each snapshot entry is parsed in order, one result per entry |
| BrokerTable.LoadParsed | src/main/java/com/homeadvisor/kafdrop/service/CuratorKafkaMonitor.java:340-344 | adding the parsed snapshot entries in order only adds keys and keeps every broker stored under its own id (LoadParsedStopsAtFailure, LoadParsedPasses, LoadParsedStoresLast: what it adds) |
| BrokerTable.RemoveChild | src/main/java/com/homeadvisor/kafdrop/service/CuratorKafkaMonitor.java:328-331 | CHILD_REMOVED throws with the table unchanged, or returns normally only for a parsed id present in the table, leaving every other entry except for controller flags; with a controller id the flags follow it, and without one the table is exactly the old one minus that id; keeps brokers under their own ids |
| BrokerTable.AddChild | src/main/java/com/homeadvisor/kafdrop/service/CuratorKafkaMonitor.java:333-337 | CHILD_ADDED/UPDATED returns normally exactly when the entry parses; a throw carries the parse error and leaves the table unchanged; otherwise the table is the put of the parsed broker up to controller flags, which follow a controller id, and exactly the put without one; keeps brokers under their own ids |
| BrokerTable.LoadSnapshot | src/main/java/com/homeadvisor/kafdrop/service/CuratorKafkaMonitor.java:340-347 | INITIALIZED has the outcome of the walk over the parsed snapshot and its table up to controller flags (exactly its table without a controller id); it only adds keys, keeps brokers under their own ids, and on a normal return with a controller id leaves the flags following it |
| BrokerTable.Step | src/main/java/com/homeadvisor/kafdrop/service/CuratorKafkaMonitor.java:325-348 | every listener call keeps every broker stored under its own id; a throwing CHILD_ADDED/UPDATED/REMOVED leaves the table unchanged; a connection event never throws; a normal return with a controller id leaves the flags following it |
| BrokerTable.MinExists | src/main/java/com/homeadvisor/kafdrop/service/CuratorKafkaMonitor.java:75 | a non-empty set of broker ids has a least element, the first key of the TreeMap |
| BrokerTable.InIdOrder | src/main/java/com/homeadvisor/kafdrop/service/CuratorKafkaMonitor.java:206 | the values of the table are as many as its entries |
| BrokerTable.InIdOrderMembers | src/main/java/com/homeadvisor/kafdrop/service/CuratorKafkaMonitor.java:206 | the values hold every broker of the table, and nothing else |
| BrokerTable.InIdOrderIds | src/main/java/com/homeadvisor/kafdrop/service/CuratorKafkaMonitor.java:206 | with every broker stored under its own id, every value's id is a key of the table |
| BrokerTable.InIdOrderSorted | src/main/java/com/homeadvisor/kafdrop/service/CuratorKafkaMonitor.java:206 | with every broker stored under its own id, the values come in strictly ascending id order |
| BrokerTable.ReplayKeepsKeysMatchIds | src/main/java/com/homeadvisor/kafdrop/service/CuratorKafkaMonitor.java:325-348 | any sequence of listener calls under one fixed controller payload keeps every broker stored under its own id (Step gives it per call for any payload) |
| BrokerTable.StepAdded | src/main/java/com/homeadvisor/kafdrop/service/CuratorKafkaMonitor.java:333-337 | ADDED/UPDATED with a parsed broker b returns normally, stores b under its id, and leaves every other broker's id, host and port as they were; without a controller payload the table is exactly the put |
| BrokerTable.StepRemoved | src/main/java/com/homeadvisor/kafdrop/service/CuratorKafkaMonitor.java:328-331 | REMOVED of a present id returns normally and deletes that key, leaving every other entry except for controller flags, and exactly the old table minus that key without a controller id; of an absent id it throws and leaves the table unchanged |
| BrokerTable.StepControllerExclusive | src/main/java/com/homeadvisor/kafdrop/service/CuratorKafkaMonitor.java:347 | after any call that returns normally with controller c, exactly the broker with id c is flagged, so at most one broker is controller |
| BrokerTable.StepKeepsAtMostOneController | src/main/java/com/homeadvisor/kafdrop/service/CuratorKafkaMonitor.java:325-348 | with any controller payload, absent or undecodable included, a listener call whose broker payloads do not claim the controller role keeps at most one broker flagged as controller |
| BrokerTable.LoadParsedStopsAtFailure | src/main/java/com/homeadvisor/kafdrop/service/CuratorKafkaMonitor.java:340-344 | once the walk over a prefix of the snapshot has failed, the entries after it change nothing |
| BrokerTable.LoadParsedFailingEntry | src/main/java/com/homeadvisor/kafdrop/service/CuratorKafkaMonitor.java:340-344 | any snapshot entry that fails to parse makes the walk fail, whatever precedes or follows it |
| BrokerTable.InitializedFailingEntry | src/main/java/com/homeadvisor/kafdrop/service/CuratorKafkaMonitor.java:340-344 | INITIALIZED throws whenever one of its snapshot entries fails to parse (the converse of LoadParsedPasses) |
| BrokerTable.LoadParsedLeavesOthers | src/main/java/com/homeadvisor/kafdrop/service/CuratorKafkaMonitor.java:340-344 | an id that no parsed snapshot entry carries keeps its entry or absence, whether or not the walk fails |
| BrokerTable.SnapshotNotNaming | src/main/java/com/homeadvisor/kafdrop/service/CuratorKafkaMonitor.java:340-344 | a snapshot none of whose paths names id produces no broker with that id |
| BrokerTable.ParsedIdsSnoc | src/main/java/com/homeadvisor/kafdrop/service/CuratorKafkaMonitor.java:340-343 | the ids of a parsed snapshot are those of all entries but the last, plus the last one's |
| BrokerTable.LoadParsedPasses | src/main/java/com/homeadvisor/kafdrop/service/CuratorKafkaMonitor.java:340-344 | when every entry parses, INITIALIZED returns normally and the keys become the old keys plus the snapshot's ids |
| BrokerTable.LoadParsedStoresLast | src/main/java/com/homeadvisor/kafdrop/service/CuratorKafkaMonitor.java:340-344 | when every entry parses, each snapshot id maps to the broker of the last entry that carries it |
| BrokerTable.LoadParsedLast | src/main/java/com/homeadvisor/kafdrop/service/CuratorKafkaMonitor.java:340-344 | when every entry parses, loading the snapshot is loading all entries but the last, then putting the last |
| BrokerTable.RecomputeAbsorbs | src/main/java/com/homeadvisor/kafdrop/service/CuratorKafkaMonitor.java:153-170 | a recompute before a put is absorbed by the recompute after it |
| BrokerTable.ReplayedAddsLoad | src/main/java/com/homeadvisor/kafdrop/service/CuratorKafkaMonitor.java:325-348 | one CHILD_ADDED per entry of a non-empty snapshot whose entries all parse adds them all, then recomputes the flags (an empty INITIALIZED still recomputes the flags, while zero adds change nothing, so the snapshot must be non-empty) |
| BrokerTable.InitializedMatchesReplayedAdds | src/main/java/com/homeadvisor/kafdrop/service/CuratorKafkaMonitor.java:325-348 | INITIALIZED with a non-empty snapshot whose entries all parse leaves the same table as one CHILD_ADDED per entry, and returns normally |
| Topics.CompareNames | src/main/java/com/homeadvisor/kafdrop/service/CuratorKafkaMonitor.java:279 | compareTo is zero exactly for equal names, and a prefix never compares greater |
| Topics.CompareNamesAntisymmetric | src/main/java/com/homeadvisor/kafdrop/service/CuratorKafkaMonitor.java:279 | swapping the names negates compareTo |
| Topics.CompareNamesTransitive | src/main/java/com/homeadvisor/kafdrop/service/CuratorKafkaMonitor.java:279 | compareTo is transitive, as Comparable requires |
| Topics.SortedByNameGlobal | src/main/java/com/homeadvisor/kafdrop/service/CuratorKafkaMonitor.java:279 | in a list sorted by name, every name is no greater than every later one |
| Topics.InsertByName | src/main/java/com/homeadvisor/kafdrop/service/CuratorKafkaMonitor.java:279 | inserting into a list sorted by name keeps it sorted and adds exactly that topic |
| Topics.SortByName | src/main/java/com/homeadvisor/kafdrop/service/CuratorKafkaMonitor.java:278-280 | the sorted topics are ordered by name and are a permutation of the input |
| Monitor.Gate | src/main/java/com/homeadvisor/kafdrop/service/CuratorKafkaMonitor.java:172-176 | the gate passes exactly when the counter is not positive, and otherwise fails with NotInitializedException |
| Monitor.CuratorKafkaMonitor.constructor | src/main/java/com/homeadvisor/kafdrop/service/CuratorKafkaMonitor.java:104 | the broker table starts empty and the counter at 4 |
| Monitor.CuratorKafkaMonitor.ValidateInitialized | src/main/java/com/homeadvisor/kafdrop/service/CuratorKafkaMonitor.java:172-176 | validateInitialized throws NotInitializedException exactly when the counter is positive |
| Monitor.CuratorKafkaMonitor.CacheInitialized | src/main/java/com/homeadvisor/kafdrop/service/CuratorKafkaMonitor.java:108-140 | each INITIALIZED listener lowers the counter by one, and an open gate stays open |
| Monitor.CuratorKafkaMonitor.AddBroker | src/main/java/com/homeadvisor/kafdrop/service/CuratorKafkaMonitor.java:191-195 | the table becomes the put of the broker; the returned old broker is absent exactly when the id was absent, and otherwise is the replaced one |
| Monitor.CuratorKafkaMonitor.RemoveBroker | src/main/java/com/homeadvisor/kafdrop/service/CuratorKafkaMonitor.java:197-201 | the key is gone and nothing else changes; a present id returns its broker, an absent one throws |
| Monitor.CuratorKafkaMonitor.UpdateControllerTo | src/main/java/com/homeadvisor/kafdrop/service/CuratorKafkaMonitor.java:167-170 | walking the brokers leaves the table with the controller flags set from the given id |
| Monitor.CuratorKafkaMonitor.UpdateController | src/main/java/com/homeadvisor/kafdrop/service/CuratorKafkaMonitor.java:153-165 | the table becomes the recompute for the decoded controller payload |
| Monitor.CuratorKafkaMonitor.OnChildRemoved | src/main/java/com/homeadvisor/kafdrop/service/CuratorKafkaMonitor.java:328-331 | the REMOVED branch and the recompute leave exactly the table and outcome RemoveChild specifies |
| Monitor.CuratorKafkaMonitor.OnChildAdded | src/main/java/com/homeadvisor/kafdrop/service/CuratorKafkaMonitor.java:333-337 | the ADDED/UPDATED branch and the recompute leave exactly the table and outcome AddChild specifies |
| Monitor.CuratorKafkaMonitor.OnInitialized | src/main/java/com/homeadvisor/kafdrop/service/CuratorKafkaMonitor.java:340-344 | the loop over the snapshot and the recompute leave exactly the table and outcome LoadSnapshot specifies |
| Monitor.CuratorKafkaMonitor.ChildEvent | src/main/java/com/homeadvisor/kafdrop/service/CuratorKafkaMonitor.java:325-348 | childEvent leaves exactly the table and outcome that Step specifies, and keeps every broker under its own id |
| Monitor.CuratorKafkaMonitor.GetBrokers | src/main/java/com/homeadvisor/kafdrop/service/CuratorKafkaMonitor.java:203-207 | getBrokers fails exactly while the gate is closed; otherwise it returns every broker of the table and nothing else, one per entry, in strictly ascending id order |
| Monitor.CuratorKafkaMonitor.GetBroker | src/main/java/com/homeadvisor/kafdrop/service/CuratorKafkaMonitor.java:209-213 | getBroker fails exactly while the gate is closed; otherwise it returns the broker stored under the id, or none when the id is absent, and that broker has the requested id |
| Monitor.CuratorKafkaMonitor.RandomBroker | src/main/java/com/homeadvisor/kafdrop/service/CuratorKafkaMonitor.java:230-238 | randomBroker returns null exactly when the table is empty, and otherwise an id of the table |
| Monitor.CuratorKafkaMonitor.BrokerChannel | src/main/java/com/homeadvisor/kafdrop/service/CuratorKafkaMonitor.java:215-228 | with no id and an empty table it fails with "no brokers"; else a closed gate fails; an explicit id gives that broker's channel or "broker not available"; with no id it gives the channel of some broker in the table |
| Monitor.CuratorKafkaMonitor.GetTopics | src/main/java/com/homeadvisor/kafdrop/service/CuratorKafkaMonitor.java:276-281 | a closed gate fails first, then an empty table, then a failed fetch; otherwise it succeeds, and the result is the fetched topics sorted by name, as a permutation, each name no greater than every later one |
| Monitor.CuratorKafkaMonitor.GetTopic | src/main/java/com/homeadvisor/kafdrop/service/CuratorKafkaMonitor.java:284-289 | the same failures in the same order, and success otherwise; a result holds the topic exactly when the fetched metadata names it |
| ClusterSummary.Bump | src/main/java/com/homeadvisor/kafdrop/service/CuratorKafkaMonitor.java:250-255 | counting a partition for a broker raises that broker's tally by the count and leaves every other broker's tally alone |
| ClusterSummary.AddPartitions | src/main/java/com/homeadvisor/kafdrop/service/CuratorKafkaMonitor.java:248-258 | walking a topic's partitions leaves the topic, partition and under-replicated counts alone and only adds expected broker ids (AddPartitionsAccumulates: exactly which) |
| ClusterSummary.AddCounts | src/main/java/com/homeadvisor/kafdrop/service/CuratorKafkaMonitor.java:265-266 | folding one tally into another gives each broker the sum of its two counts |
| ClusterSummary.TopicSummary | src/main/java/com/homeadvisor/kafdrop/service/CuratorKafkaMonitor.java:243-259 | one topic's summary holds its partition count, its under-replicated count, its leader and preferred-leader tallies and its replica ids, with a topic count of zero |
| ClusterSummary.Combine | src/main/java/com/homeadvisor/kafdrop/service/CuratorKafkaMonitor.java:261-268 | the reducer as written sums the partition and under-replicated counts and every broker's two tallies, and keeps only the first summary's expected broker ids |
| ClusterSummary.Reduce | src/main/java/com/homeadvisor/kafdrop/service/CuratorKafkaMonitor.java:261-269 | the reduction is present exactly when there is at least one topic |
| ClusterSummary.GetClusterSummary | src/main/java/com/homeadvisor/kafdrop/service/CuratorKafkaMonitor.java:241-270 | the topic count is the number of topics, and no topics give a fresh summary (ClusterSummaryAsWritten: all the counts and ids) |
| ClusterSummary.TallyAppend | src/main/java/com/homeadvisor/kafdrop/service/CuratorKafkaMonitor.java:250-255 | a broker's tally over two partition lists is the sum of its tallies over each |
| ClusterSummary.UnderReplicatedAppend | src/main/java/com/homeadvisor/kafdrop/service/CuratorKafkaMonitor.java:246 | the under-replicated count of two partition lists is the sum of their counts |
| ClusterSummary.ReplicaIdsAppend | src/main/java/com/homeadvisor/kafdrop/service/CuratorKafkaMonitor.java:256-257 | the replica ids of two partition lists are the union of each list's ids |
| ClusterSummary.AddPartitionsAccumulates | src/main/java/com/homeadvisor/kafdrop/service/CuratorKafkaMonitor.java:248-258 | walking a topic's partitions adds each to its leader's and preferred leader's tallies, skipping null ones, adds its replicas to the expected ids, and leaves the counts alone |
| ClusterSummary.ReduceCounts | src/main/java/com/homeadvisor/kafdrop/service/CuratorKafkaMonitor.java:261-269 | reducing a non-empty topic list sums partition and under-replicated counts over all topics and counts each broker's leader and preferred-leader partitions over all partitions of all topics |
| ClusterSummary.ReduceExpectedBrokerIds | src/main/java/com/homeadvisor/kafdrop/service/CuratorKafkaMonitor.java:261-268 | as written, the reduction's expected broker ids are those of the first topic alone; with the corrected reducer, those of all topics |
| ClusterSummary.ClusterSummaryAsWritten | src/main/java/com/homeadvisor/kafdrop/service/CuratorKafkaMonitor.java:241-270 | getClusterSummary's topic count is the number of topics; its partition and under-replicated counts and per-broker tallies cover all topics (zero for none); its expected broker ids are the first topic's only |
| ClusterSummary.ClusterSummaryCorrected | src/main/java/com/homeadvisor/kafdrop/service/CuratorKafkaMonitor.java:241-270 | with the corrected reducer, the same counts, and the expected broker ids are the replicas of every partition of every topic |
| ClusterSummary.LaterTopicReplicaIdsDropped | src/main/java/com/homeadvisor/kafdrop/service/CuratorKafkaMonitor.java:261-268 | for two topics replicated on brokers 1 and 2, broker 2 is a replica but the summary as written does not expect it |

## Left out

- Curator cache construction, `start`'s listener wiring, `stop` and the `close` calls (:106-146, :178-185). The model keeps only the listeners' effects on the monitor's state. The four listeners become `CacheInitialized`. The controller node listener becomes `UpdateController`.
- Jackson decoding of broker and controller payloads (:157-158, :356). It is a foreign library. A decoded broker payload is an `Option<BrokerData>`; the controller id is an `Option<int>`.
- A controller payload whose `brokerid` is not an `Integer`: the `(Integer)` cast would throw `ClassCastException`. This case is not modelled.
- Spring `RetryTemplate` and its policies (:92-102, :291-295). The retry semantics live in a library that is not part of this model. `GetTopics` and `GetTopic` make a single attempt.
- The Kafka calls behind `getTopicMetadata`, `getTopicPartitionSizes` and `getMessages` (:291-323), and `BrokerChannel.execute`. These are network RPC. Fetched topic metadata is an input. The partition-size attachment in `getTopic` (:287) is not modelled.
- Concurrency. The source has no synchronization, so the model is sequential.
- `Collections.shuffle` (:233) is a nondeterministic choice of any key.
- The preferred-replica percentage (:247, :264, :271) is floating point, and its mean divides by the topic count even when that is zero. It is not modelled.
- `ClusterSummaryVO`, `TopicVO`, `TopicPartitionVO` and `BrokerVO` are not part of this model. Their behaviour is assumed:
  - `addBrokerLeaderPartition(id)` adds one to the broker's tally.
  - the `(id, count)` overload adds the count.
  - `addExpectedBrokerId` adds to a set.
  - a partition's under-replicated status is a field.
- BrokerVO aliasing. The source's lists hold the same objects that later `setController` calls mutate. The model's brokers are values, so a returned list does not change afterwards.
- ClusterSummary.Summary: counts are unbounded naturals; Java `int` overflow of the sums is not modelled.
- BrokerPath.ParseInt: accepts only the ASCII digits '0'-'9'. `Integer.parseInt` also accepts other Unicode decimal digits.
- Topics.CompareNames: compares Dafny characters (Unicode scalar values). `String.compareTo` compares UTF-16 code units, which orders supplementary characters differently.

## Findings

| source | as written | input that shows it | evidently intended | confidence | as-written member | corrected member |
|---|---|---|---|---|---|---|
| src/main/java/com/homeadvisor/kafdrop/service/CuratorKafkaMonitor.java:261-268 | the reducer adds `s2`'s counts and tallies into `s1` but never adds `s2`'s expected broker ids, so only the first topic's replica ids survive | two topics, one partition each, replicated on broker 1 and on broker 2: broker 2 is missing from the expected broker ids | the expected broker ids are the replicas of every partition of every topic | not executed; high | ClusterSummary.LaterTopicReplicaIdsDropped | ClusterSummary.ClusterSummaryCorrected |

=== FILE: broker_path.dfy ===
/** Extracting a broker id from the ZooKeeper path of a broker node:
    StringUtils.substringAfter followed by Integer.parseInt. */
module BrokerPath {
  import opened Wrappers
  import opened MonitorErrors

  /** ZkUtils.BrokerIdsPath: the node whose children are the registered brokers. */
  const BrokerIdsPath: string := "/brokers/ids"

  /** The bounds of a Java int. */
  const MinInt: int := -0x8000_0000
  const MaxInt: int := 0x7fff_ffff

  // ---------------------------------------------------------------------------
  // String search (String.indexOf, StringUtils.substringAfter)
  // ---------------------------------------------------------------------------

  /** `sep` occurs in `s` starting at index `i`. */
  predicate Occurs(s: string, sep: string, i: nat) {
    i + |sep| <= |s| && s[i..i + |sep|] == sep
  }

  /** The first occurrence of `sep` in `s` at or after `from` (see IndexFromIsFirst). */
  function IndexFrom(s: string, sep: string, from: nat): (r: Option<nat>)
    ensures r.Some? ==> from <= r.value && Occurs(s, sep, r.value)
    decreases |s| - from
  {
    if from + |sep| > |s| then None
    else if s[from..from + |sep|] == sep then Some(from)
    else IndexFrom(s, sep, from + 1)
  }

  /** No occurrence at or after `from` comes before the one IndexFrom finds,
      and there is none at all when it finds none. */
  lemma {:induction false} IndexFromIsFirst(s: string, sep: string, from: nat)
    ensures IndexFrom(s, sep, from).Some? ==>
      forall j: nat :: from <= j < IndexFrom(s, sep, from).value ==> !Occurs(s, sep, j)
    ensures IndexFrom(s, sep, from).None? ==> forall j: nat :: from <= j ==> !Occurs(s, sep, j)
    decreases |s| - from
  {
    if from + |sep| <= |s| && s[from..from + |sep|] != sep {
      IndexFromIsFirst(s, sep, from + 1);
    }
  }

  /** String.indexOf(sep): the first occurrence, or None for Java's -1. */
  function IndexOf(s: string, sep: string): (r: Option<nat>)
    ensures r.Some? ==> Occurs(s, sep, r.value)
  {
    IndexFrom(s, sep, 0)
  }

  /** StringUtils.substringAfter: what follows the first occurrence of `sep`,
      the empty string when `sep` does not occur, and `s` itself when it is empty. */
  function SubstringAfter(s: string, sep: string): (r: string)
    ensures |r| <= |s|
    ensures IndexOf(s, sep).None? ==> r == []
  {
    if |s| == 0 then s
    else match IndexOf(s, sep)
      case None => []
      case Some(i) => s[i + |sep|..]
  }

  /** The result of substringAfter is the text after the first occurrence of `sep`. */
  lemma SubstringAfterSplits(s: string, sep: string)
    ensures IndexOf(s, sep).None? ==> SubstringAfter(s, sep) == []
    ensures IndexOf(s, sep).Some? ==>
      var i := IndexOf(s, sep).value;
      s == s[..i] + sep + SubstringAfter(s, sep) && forall j: nat :: j < i ==> !Occurs(s, sep, j)
  {
    IndexFromIsFirst(s, sep, 0);
    if IndexOf(s, sep).Some? {
      var i := IndexOf(s, sep).value;
      assert s[i..i + |sep|] == sep;
      assert s == s[..i] + s[i..i + |sep|] + s[i + |sep|..];
    }
  }

  // ---------------------------------------------------------------------------
  // Decimal numerals (Integer.parseInt in radix 10, and its inverse)
  // ---------------------------------------------------------------------------

  predicate IsDigit(c: char) {
    '0' <= c <= '9'
  }

  predicate AllDigits(s: string) {
    forall i :: 0 <= i < |s| ==> IsDigit(s[i])
  }

  function DigitValue(c: char): nat
    requires IsDigit(c)
  {
    (c as int) - ('0' as int)
  }

  function DigitChar(d: nat): char
    requires d < 10
  {
    (('0' as int) + d) as char
  }

  /** The value of a string of decimal digits, most significant first; None
      when some character is not a digit. */
  function DigitsValue(s: string): (r: Option<nat>)
    ensures r.Some? <==> AllDigits(s)
    decreases |s|
  {
    if s == [] then Some(0)
    else if !IsDigit(s[|s| - 1]) then None
    else match DigitsValue(s[..|s| - 1])
      case None => None
      case Some(v) => Some(v * 10 + DigitValue(s[|s| - 1]))
  }

  /** The canonical decimal numeral of `n`: digits only, no leading zero. */
  function Decimal(n: nat): (r: string)
    ensures |r| > 0 && AllDigits(r)
    ensures r[0] == '0' ==> n == 0
    decreases n
  {
    if n < 10 then [DigitChar(n)] else Decimal(n / 10) + [DigitChar(n % 10)]
  }

  /** Integer.parseInt(s): an optional sign, then one or more ASCII digits,
      and a value that fits a Java int; anything else is a NumberFormatException. */
  function ParseInt(s: string): (r: Result<int, MonitorError>)
    ensures |s| == 0 ==> r.Failure?
    ensures r.Failure? ==> r.error == NumberFormat(s)
    ensures r.Success? ==> MinInt <= r.value <= MaxInt
    ensures r.Success? && r.value < 0 ==> s[0] == '-'
  {
    if |s| == 0 then Failure(NumberFormat(s))
    else
      var negative := s[0] == '-';
      var digits := if s[0] == '-' || s[0] == '+' then s[1..] else s;
      if |digits| == 0 then Failure(NumberFormat(s))
      else match DigitsValue(digits)
        case None => Failure(NumberFormat(s))
        case Some(v) =>
          if negative then
            (if v <= -MinInt then Success(-(v as int)) else Failure(NumberFormat(s)))
          else
            (if v <= MaxInt then Success(v) else Failure(NumberFormat(s)))
  }

  /** Whatever parses is a sign or digit followed by digits only. */
  lemma ParseIntAcceptsOnlyDigits(s: string)
    requires ParseInt(s).Success?
    ensures |s| > 0 && (IsDigit(s[0]) || s[0] == '-' || s[0] == '+')
    ensures forall i :: 1 <= i < |s| ==> IsDigit(s[i])
  {
    var digits := if s[0] == '-' || s[0] == '+' then s[1..] else s;
    assert AllDigits(digits);
    if digits == s {
      assert IsDigit(s[0]);
    } else {
      forall i | 1 <= i < |s| ensures IsDigit(s[i]) {
        assert s[i] == digits[i - 1];
      }
    }
  }

  /** brokerId(ChildData): the text after "/brokers/ids/" in the node's path, parsed. */
  function BrokerId(path: string): (r: Result<int, MonitorError>)
    ensures IndexOf(path, BrokerIdsPath + "/").None? ==> r == Failure(NumberFormat(""))
    ensures r.Success? ==> MinInt <= r.value <= MaxInt
  {
    ParseInt(SubstringAfter(path, BrokerIdsPath + "/"))
  }

  // ---------------------------------------------------------------------------
  // Round trips
  // ---------------------------------------------------------------------------

  lemma {:induction false} DecimalValue(n: nat)
    ensures DigitsValue(Decimal(n)) == Some(n)
    decreases n
  {
    var d := Decimal(n);
    if n < 10 {
      assert d[..|d| - 1] == [];
    } else {
      assert d[..|d| - 1] == Decimal(n / 10);
      DecimalValue(n / 10);
    }
  }

  /** Parsing a canonical numeral gives its value back exactly when the value fits a Java int. */
  lemma ParseIntDecimal(n: nat)
    ensures ParseInt(Decimal(n)) == if n <= MaxInt then Success(n) else Failure(NumberFormat(Decimal(n)))
  {
    var d := Decimal(n);
    assert IsDigit(d[0]);
    DecimalValue(n);
  }

  /** A minus sign before a canonical numeral negates it, down to the Java int minimum. */
  lemma ParseIntNegative(n: nat)
    ensures ParseInt("-" + Decimal(n)) == if n <= -MinInt then Success(-(n as int)) else Failure(NumberFormat("-" + Decimal(n)))
  {
    var s := "-" + Decimal(n);
    assert s[1..] == Decimal(n);
    DecimalValue(n);
  }

  /** The path of broker `n`'s node gives back `n`. */
  lemma BrokerIdRoundTrip(n: nat)
    requires n <= MaxInt
    ensures BrokerId(BrokerIdsPath + "/" + Decimal(n)) == Success(n)
  {
    var prefix := BrokerIdsPath + "/";
    var path := prefix + Decimal(n);
    assert path[0..|prefix|] == prefix;
    assert IndexOf(path, prefix) == Some(0);
    assert path[|prefix|..] == Decimal(n);
    ParseIntDecimal(n);
  }
}

=== FILE: broker_table.dfy ===
/** The broker table (brokerCache, a TreeMap from broker id to broker) and
    the transitions the broker-path listener applies to it, as functions on
    values. The class in monitor.dfy performs them in place and is proved to
    agree with Step. */
module BrokerTable {
  import opened Wrappers
  import opened MonitorErrors
  import opened BrokerPath

  /** BrokerVO: id, host, port and the controller flag. */
  datatype Broker = Broker(id: int, host: string, port: int, isController: bool)

  /** What the JSON decoder makes of a broker node's payload, before the id is
      set from the node's path. */
  datatype BrokerData = BrokerData(host: string, port: int, controller: bool)

  /** ChildData: a node's path and its decoded payload; None when the payload
      cannot be decoded. */
  datatype ChildData = ChildData(path: string, data: Option<BrokerData>)

  /** The events of the broker path cache. INITIALIZED carries the cache's
      current data at the time the listener runs; the connection events
      (suspended, reconnected, lost) have no case of their own in the listener. */
  datatype BrokerEvent =
    | ChildAdded(child: ChildData)
    | ChildUpdated(child: ChildData)
    | ChildRemoved(child: ChildData)
    | Initialized(snapshot: seq<ChildData>)
    | ConnectionChanged

  /** Whether the listener returned normally or let an exception escape. */
  datatype Outcome = Pass | Fail(error: MonitorError)

  /** The table after a listener call, and how the call ended. */
  datatype Applied = Applied(table: map<int, Broker>, outcome: Outcome)

  type Table = map<int, Broker>

  /** Every broker is stored under its own id. */
  predicate KeysMatchIds(m: Table) {
    forall id :: id in m ==> m[id].id == id
  }

  /** A broker is flagged as controller exactly when its id is `c`. */
  predicate ControllerFlagsFollow(m: Table, c: int) {
    forall id :: id in m ==> (m[id].isController <==> m[id].id == c)
  }

  predicate AtMostOneController(m: Table) {
    forall a, b :: a in m && b in m && m[a].isController && m[b].isController ==> a == b
  }

  /** Same keys, and under each key the same id, host and port: the tables
      differ at most in their controller flags. */
  predicate SameMembers(m1: Table, m2: Table) {
    && m1.Keys == m2.Keys
    && forall id :: id in m1 ==>
         m1[id].id == m2[id].id && m1[id].host == m2[id].host && m1[id].port == m2[id].port
  }

  /** parseBroker: decode the payload, then take the id from the path. */
  function ParseBroker(c: ChildData): (r: Result<Broker, MonitorError>)
    ensures c.data.None? ==> r == Failure(MalformedPayload(c.path))
    ensures c.data.Some? && BrokerId(c.path).Failure? ==> r == Failure(BrokerId(c.path).error)
    ensures r.Success? ==> BrokerId(c.path) == Success(r.value.id)
    ensures r.Success? ==> c.data == Some(BrokerData(r.value.host, r.value.port, r.value.isController))
  {
    match c.data
    case None => Failure(MalformedPayload(c.path))
    case Some(d) =>
      match BrokerId(c.path)
      case Failure(e) => Failure(e)
      case Success(id) => Success(Broker(id, d.host, d.port, d.controller))
  }

  /** addBroker: brokerCache.put(broker.getId(), broker). */
  function Put(m: Table, b: Broker): (r: Table)
    ensures r.Keys == m.Keys + {b.id}
    ensures r[b.id] == b
    ensures forall id :: id in m && id != b.id ==> r[id] == m[id]
  {
    m[b.id := b]
  }

  /** updateController(int): every broker's flag becomes "my id is the controller's". */
  function SetControllerFlags(m: Table, c: int): (r: Table)
    ensures ControllerFlagsFollow(r, c)
    ensures SameMembers(m, r)
  {
    map id | id in m :: m[id].(isController := m[id].id == c)
  }

  /** updateController(): the flags follow the controller node's payload when
      it is present and decodes to a broker id; otherwise nothing changes. */
  function Recompute(m: Table, controller: Option<int>): (r: Table)
    ensures SameMembers(m, r)
    ensures controller.Some? ==> ControllerFlagsFollow(r, controller.value)
    ensures controller.None? ==> r == m
  {
    match controller
    case None => m
    case Some(c) => SetControllerFlags(m, c)
  }

  /** Every snapshot entry parsed; the source parses lazily, one entry ahead
      of each add, which is the same for a parse without side effects. */
  function ParseAll(snapshot: seq<ChildData>): (r: seq<Result<Broker, MonitorError>>)
    ensures |r| == |snapshot|
    ensures forall i :: 0 <= i < |r| ==> r[i] == ParseBroker(snapshot[i])
  {
    seq(|snapshot|, i requires 0 <= i < |snapshot| => ParseBroker(snapshot[i]))
  }

  /** The INITIALIZED branch: add the parsed entries in order; the first entry
      that failed to parse ends the walk with its exception, and the entries
      before it stay added. */
  function LoadParsed(m: Table, parsed: seq<Result<Broker, MonitorError>>): (r: Applied)
    ensures m.Keys <= r.table.Keys
    ensures KeysMatchIds(m) ==> KeysMatchIds(r.table)
    decreases |parsed|
  {
    if parsed == [] then Applied(m, Pass)
    else
      var before := LoadParsed(m, parsed[..|parsed| - 1]);
      if before.outcome.Fail? then before
      else match parsed[|parsed| - 1]
        case Failure(e) => Applied(before.table, Fail(e))
        case Success(b) => Applied(Put(before.table, b), Pass)
  }

  /** BrokerListener.childEvent with `controller` the decoded payload of the
      controller node. The trailing updateController() runs only when the
      branch before it did not throw. */
  function Step(m: Table, e: BrokerEvent, controller: Option<int>): (r: Applied)
    ensures KeysMatchIds(m) ==> KeysMatchIds(r.table)
    ensures r.outcome.Fail? && !e.Initialized? ==> r.table == m
    ensures r.outcome.Pass? && controller.Some? ==> ControllerFlagsFollow(r.table, controller.value)
    ensures e.ConnectionChanged? ==> r.outcome == Pass
  {
    match e
    case ChildRemoved(child) => RemoveChild(m, child, controller)
    case ChildAdded(child) => AddChild(m, child, controller)
    case ChildUpdated(child) => AddChild(m, child, controller)
    case Initialized(snapshot) => LoadSnapshot(m, snapshot, controller)
    case ConnectionChanged => Applied(Recompute(m, controller), Pass)
  }

  /** The CHILD_REMOVED branch followed by updateController(). */
  function RemoveChild(m: Table, child: ChildData, controller: Option<int>): (r: Applied)
    ensures r.outcome.Fail? ==> r.table == m
    ensures r.outcome.Pass? ==>
      BrokerId(child.path).Success? && BrokerId(child.path).value in m
      && SameMembers(m - {BrokerId(child.path).value}, r.table)
    ensures r.outcome.Pass? && controller.None? ==> r.table == m - {BrokerId(child.path).value}
    ensures r.outcome.Pass? && controller.Some? ==> ControllerFlagsFollow(r.table, controller.value)
    ensures KeysMatchIds(m) ==> KeysMatchIds(r.table)
  {
    match BrokerId(child.path)
    case Failure(err) => Applied(m, Fail(err))
    case Success(id) =>
      if id in m then Applied(Recompute(m - {id}, controller), Pass)
      else Applied(m, Fail(NullBroker(id)))
  }

  /** The INITIALIZED branch followed by updateController(). */
  function LoadSnapshot(m: Table, snapshot: seq<ChildData>, controller: Option<int>): (r: Applied)
    ensures r.outcome == LoadParsed(m, ParseAll(snapshot)).outcome
    ensures SameMembers(LoadParsed(m, ParseAll(snapshot)).table, r.table)
    ensures controller.None? ==> r == LoadParsed(m, ParseAll(snapshot))
    ensures m.Keys <= r.table.Keys
    ensures r.outcome.Pass? && controller.Some? ==> ControllerFlagsFollow(r.table, controller.value)
    ensures KeysMatchIds(m) ==> KeysMatchIds(r.table)
  {
    var loaded := LoadParsed(m, ParseAll(snapshot));
    if loaded.outcome.Fail? then loaded
    else Applied(Recompute(loaded.table, controller), Pass)
  }

  /** The CHILD_ADDED / CHILD_UPDATED branch followed by updateController(). */
  function AddChild(m: Table, child: ChildData, controller: Option<int>): (r: Applied)
    ensures r.outcome.Pass? <==> ParseBroker(child).Success?
    ensures r.outcome.Fail? ==> r.table == m && r.outcome.error == ParseBroker(child).error
    ensures r.outcome.Pass? ==> SameMembers(Put(m, ParseBroker(child).value), r.table)
    ensures r.outcome.Pass? && controller.None? ==> r.table == Put(m, ParseBroker(child).value)
    ensures r.outcome.Pass? && controller.Some? ==> ControllerFlagsFollow(r.table, controller.value)
    ensures KeysMatchIds(m) ==> KeysMatchIds(r.table)
  {
    match ParseBroker(child)
    case Failure(err) => Applied(m, Fail(err))
    case Success(b) => Applied(Recompute(Put(m, b), controller), Pass)
  }

  /** Listener calls delivered one after another; an exception in one call
      does not stop the next. */
  function Replay(m: Table, events: seq<BrokerEvent>, controller: Option<int>): Table
    decreases |events|
  {
    if events == [] then m
    else Step(Replay(m, events[..|events| - 1], controller), events[|events| - 1], controller).table
  }

  /** One CHILD_ADDED event per snapshot entry. */
  function AddedEvents(snapshot: seq<ChildData>): (r: seq<BrokerEvent>)
    ensures |r| == |snapshot|
    ensures forall i :: 0 <= i < |r| ==> r[i] == ChildAdded(snapshot[i])
  {
    seq(|snapshot|, i requires 0 <= i < |snapshot| => ChildAdded(snapshot[i]))
  }

  /** The ids of the entries that parsed. */
  function ParsedIds(parsed: seq<Result<Broker, MonitorError>>): set<int> {
    set i | 0 <= i < |parsed| && parsed[i].Success? :: parsed[i].value.id
  }

  /** A set of ids that is not empty has an element. */
  lemma HasElement(s: set<int>)
    requires |s| > 0
    ensures exists x :: x in s
  {
    if forall y :: y !in s {
      assert false;
    }
  }

  /** A smallest element of a non-empty set of ids. */
  lemma {:induction false} MinExists(s: set<int>)
    requires |s| > 0
    ensures exists k :: k in s && forall j :: j in s ==> k <= j
    decreases |s|
  {
    HasElement(s);
    var x :| x in s;
    if |s - {x}| > 0 {
      MinExists(s - {x});
      var k :| k in s - {x} && forall j :: j in s - {x} ==> k <= j;
      var m := if x < k then x else k;
      forall j | j in s ensures m <= j {
        if j != x {
          assert j in s - {x};
        }
      }
    }
  }

  function MinKey(s: set<int>): (k: int)
    requires |s| > 0
    ensures k in s && forall j :: j in s ==> k <= j
  {
    MinExists(s);
    var k :| k in s && forall j :: j in s ==> k <= j;
    k
  }

  /** The brokers in ascending key order: TreeMap.values(). */
  function InIdOrder(m: Table): (r: seq<Broker>)
    ensures |r| == |m|
    decreases |m|
  {
    if |m| == 0 then []
    else
      var k := MinKey(m.Keys);
      [m[k]] + InIdOrder(m - {k})
  }

  /** The values hold exactly the table's brokers. */
  lemma {:induction false} InIdOrderMembers(m: Table)
    ensures forall id :: id in m ==> m[id] in InIdOrder(m)
    ensures forall b :: b in InIdOrder(m) ==> exists id :: id in m && m[id] == b
    decreases |m|
  {
    if |m| > 0 {
      var k := MinKey(m.Keys);
      var rest := InIdOrder(m - {k});
      var r := InIdOrder(m);
      assert r == [m[k]] + rest;
      InIdOrderMembers(m - {k});
      forall id | id in m ensures m[id] in r {
        if id != k {
          assert (m - {k})[id] == m[id];
          assert m[id] in rest;
        }
      }
      forall b | b in r ensures exists id :: id in m && m[id] == b {
        if b != m[k] {
          assert b in rest;
          var id :| id in m - {k} && (m - {k})[id] == b;
          assert m[id] == b;
        }
      }
    }
  }

  /** With every broker under its own id, the values carry ids of the table. */
  lemma InIdOrderIds(m: Table)
    requires KeysMatchIds(m)
    ensures forall i :: 0 <= i < |InIdOrder(m)| ==> InIdOrder(m)[i].id in m
  {
    InIdOrderMembers(m);
    var r := InIdOrder(m);
    forall i | 0 <= i < |r| ensures r[i].id in m {
      assert r[i] in r;
      var id :| id in m && m[id] == r[i];
    }
  }

  /** With every broker under its own id, the values come in ascending id order. */
  lemma {:induction false} InIdOrderSorted(m: Table)
    ensures KeysMatchIds(m) ==> forall i, j :: 0 <= i < j < |InIdOrder(m)| ==> InIdOrder(m)[i].id < InIdOrder(m)[j].id
    decreases |m|
  {
    if |m| > 0 && KeysMatchIds(m) {
      var k := MinKey(m.Keys);
      var rest := InIdOrder(m - {k});
      var r := InIdOrder(m);
      assert r == [m[k]] + rest;
      assert KeysMatchIds(m - {k});
      InIdOrderSorted(m - {k});
      InIdOrderIds(m - {k});
      forall i, j | 0 <= i < j < |r| ensures r[i].id < r[j].id {
        assert r[j] == rest[j - 1];
        if i > 0 {
          assert r[i] == rest[i - 1];
        }
      }
    }
  }

  // ---------------------------------------------------------------------------
  // The key invariant
  // ---------------------------------------------------------------------------

  lemma {:induction false} ReplayKeepsKeysMatchIds(m: Table, events: seq<BrokerEvent>, controller: Option<int>)
    requires KeysMatchIds(m)
    ensures KeysMatchIds(Replay(m, events, controller))
    decreases |events|
  {
    if events != [] {
      ReplayKeepsKeysMatchIds(m, events[..|events| - 1], controller);
    }
  }

  // ---------------------------------------------------------------------------
  // Single events
  // ---------------------------------------------------------------------------

  /** CHILD_ADDED / CHILD_UPDATED with a payload that parses to `b`: `b` is
      stored under its id, every other broker keeps its id, host and port, and
      without a controller payload the table is exactly the put. */
  lemma StepAdded(m: Table, e: BrokerEvent, controller: Option<int>, b: Broker)
    requires e.ChildAdded? || e.ChildUpdated?
    requires ParseBroker(e.child) == Success(b)
    ensures Step(m, e, controller).outcome == Pass
    ensures SameMembers(Put(m, b), Step(m, e, controller).table)
    ensures controller.None? ==> Step(m, e, controller).table == Put(m, b)
  {
  }

  /** CHILD_REMOVED of a broker in the table deletes exactly that key; of a
      broker not in the table, leaves the table as it was and throws. */
  lemma StepRemoved(m: Table, child: ChildData, controller: Option<int>, id: int)
    requires BrokerId(child.path) == Success(id)
    ensures id in m ==> Step(m, ChildRemoved(child), controller).outcome == Pass
    ensures id in m ==> SameMembers(m - {id}, Step(m, ChildRemoved(child), controller).table)
    ensures id in m && controller.None? ==> Step(m, ChildRemoved(child), controller).table == m - {id}
    ensures id !in m ==> Step(m, ChildRemoved(child), controller) == Applied(m, Fail(NullBroker(id)))
  {
  }

  /** After any listener call that returns normally with controller `c`,
      exactly the broker with id `c` (if present) is flagged, so at most one is. */
  lemma StepControllerExclusive(m: Table, e: BrokerEvent, c: int)
    requires KeysMatchIds(m)
    requires Step(m, e, Some(c)).outcome == Pass
    ensures ControllerFlagsFollow(Step(m, e, Some(c)).table, c)
    ensures AtMostOneController(Step(m, e, Some(c)).table)
  {
    var t := Step(m, e, Some(c)).table;
    forall a, b | a in t && b in t && t[a].isController && t[b].isController
      ensures a == b
    {
      assert t[a].id == c && t[b].id == c;
    }
  }

  /** A broker payload that does not itself claim the controller role. */
  predicate Unflagged(c: ChildData) {
    c.data.Some? ==> !c.data.value.controller
  }

  /** Every broker payload the event carries is unflagged. */
  predicate EventUnflagged(e: BrokerEvent) {
    match e
    case ChildAdded(c) => Unflagged(c)
    case ChildUpdated(c) => Unflagged(c)
    case Initialized(snapshot) => forall i :: 0 <= i < |snapshot| ==> Unflagged(snapshot[i])
    case ChildRemoved(_) => true
    case ConnectionChanged => true
  }

  lemma PutUnflaggedKeepsAtMostOne(m: Table, b: Broker)
    requires AtMostOneController(m) && !b.isController
    ensures AtMostOneController(Put(m, b))
  {
    var t := Put(m, b);
    forall x, y | x in t && y in t && t[x].isController && t[y].isController ensures x == y {
      assert x != b.id && y != b.id;
      assert m[x].isController && m[y].isController;
    }
  }

  lemma RecomputeKeepsAtMostOne(m: Table, controller: Option<int>)
    requires KeysMatchIds(m) && AtMostOneController(m)
    ensures AtMostOneController(Recompute(m, controller))
  {
    var t := Recompute(m, controller);
    forall x, y | x in t && y in t && t[x].isController && t[y].isController ensures x == y {
      if controller.Some? {
        assert t[x].id == x && t[y].id == y;
      } else {
        assert m[x].isController && m[y].isController;
      }
    }
  }

  lemma {:induction false} LoadParsedKeepsAtMostOne(m: Table, parsed: seq<Result<Broker, MonitorError>>)
    requires AtMostOneController(m)
    requires forall i :: 0 <= i < |parsed| && parsed[i].Success? ==> !parsed[i].value.isController
    ensures AtMostOneController(LoadParsed(m, parsed).table)
    decreases |parsed|
  {
    if parsed != [] {
      var prefix := parsed[..|parsed| - 1];
      forall i | 0 <= i < |prefix| && prefix[i].Success? ensures !prefix[i].value.isController {
        assert prefix[i] == parsed[i];
      }
      LoadParsedKeepsAtMostOne(m, prefix);
      var before := LoadParsed(m, prefix);
      if before.outcome.Pass? && parsed[|parsed| - 1].Success? {
        PutUnflaggedKeepsAtMostOne(before.table, parsed[|parsed| - 1].value);
      }
    }
  }

  /** Whatever the controller payload, even an absent or undecodable one, a
      listener call whose broker payloads do not claim the controller role
      keeps at most one broker flagged as controller. */
  lemma StepKeepsAtMostOneController(m: Table, e: BrokerEvent, controller: Option<int>)
    requires KeysMatchIds(m) && AtMostOneController(m)
    requires EventUnflagged(e)
    ensures AtMostOneController(Step(m, e, controller).table)
  {
    match e
    case ChildRemoved(child) =>
      if Step(m, e, controller).outcome.Pass? {
        var id := BrokerId(child.path).value;
        assert KeysMatchIds(m - {id}) && AtMostOneController(m - {id});
        RecomputeKeepsAtMostOne(m - {id}, controller);
      }
    case ChildAdded(child) =>
      if ParseBroker(child).Success? {
        PutUnflaggedKeepsAtMostOne(m, ParseBroker(child).value);
        RecomputeKeepsAtMostOne(Put(m, ParseBroker(child).value), controller);
      }
    case ChildUpdated(child) =>
      if ParseBroker(child).Success? {
        PutUnflaggedKeepsAtMostOne(m, ParseBroker(child).value);
        RecomputeKeepsAtMostOne(Put(m, ParseBroker(child).value), controller);
      }
    case Initialized(snapshot) =>
      var parsed := ParseAll(snapshot);
      forall i | 0 <= i < |parsed| && parsed[i].Success? ensures !parsed[i].value.isController {
        assert Unflagged(snapshot[i]);
      }
      LoadParsedKeepsAtMostOne(m, parsed);
      if LoadParsed(m, parsed).outcome.Pass? {
        RecomputeKeepsAtMostOne(LoadParsed(m, parsed).table, controller);
      }
    case ConnectionChanged =>
      RecomputeKeepsAtMostOne(m, controller);
  }

  // ---------------------------------------------------------------------------
  // The INITIALIZED snapshot
  // ---------------------------------------------------------------------------

  /** Once a prefix has failed, the rest of the snapshot is never looked at. */
  lemma {:induction false} LoadParsedStopsAtFailure(m: Table, parsed: seq<Result<Broker, MonitorError>>, i: nat)
    requires i <= |parsed|
    requires LoadParsed(m, parsed[..i]).outcome.Fail?
    ensures LoadParsed(m, parsed) == LoadParsed(m, parsed[..i])
    decreases |parsed| - i
  {
    if i == |parsed| {
      assert parsed[..i] == parsed;
    } else {
      assert parsed[..i + 1][..i] == parsed[..i];
      LoadParsedStopsAtFailure(m, parsed, i + 1);
    }
  }

  /** An entry that fails to parse makes the walk fail, whatever comes before
      or after it. */
  lemma LoadParsedFailingEntry(m: Table, parsed: seq<Result<Broker, MonitorError>>, i: nat)
    requires i < |parsed| && parsed[i].Failure?
    ensures LoadParsed(m, parsed).outcome.Fail?
  {
    assert parsed[..i + 1][..i] == parsed[..i];
    assert parsed[..i + 1][i] == parsed[i];
    LoadParsedStopsAtFailure(m, parsed, i + 1);
  }

  /** INITIALIZED throws as soon as one snapshot entry fails to parse. */
  lemma InitializedFailingEntry(m: Table, snapshot: seq<ChildData>, controller: Option<int>, i: nat)
    requires i < |snapshot| && ParseBroker(snapshot[i]).Failure?
    ensures Step(m, Initialized(snapshot), controller).outcome.Fail?
  {
    LoadParsedFailingEntry(m, ParseAll(snapshot), i);
  }

  /** Ids no parsed entry carries are left untouched, whether or not the walk fails. */
  lemma {:induction false} LoadParsedLeavesOthers(m: Table, parsed: seq<Result<Broker, MonitorError>>, id: int)
    requires id !in ParsedIds(parsed)
    ensures id in LoadParsed(m, parsed).table <==> id in m
    ensures id in m ==> LoadParsed(m, parsed).table[id] == m[id]
    decreases |parsed|
  {
    if parsed != [] {
      var prefix := parsed[..|parsed| - 1];
      forall i | 0 <= i < |prefix| && prefix[i].Success?
        ensures prefix[i].value.id != id
      {
        assert parsed[i] == prefix[i];
      }
      LoadParsedLeavesOthers(m, prefix, id);
    }
  }

  /** A snapshot entry whose path does not name `id` never produces a broker with that id. */
  lemma SnapshotNotNaming(snapshot: seq<ChildData>, id: int)
    requires forall i :: 0 <= i < |snapshot| ==> BrokerId(snapshot[i].path) != Success(id)
    ensures id !in ParsedIds(ParseAll(snapshot))
  {
    var parsed := ParseAll(snapshot);
    forall i | 0 <= i < |parsed| && parsed[i].Success?
      ensures parsed[i].value.id != id
    {
      assert parsed[i] == ParseBroker(snapshot[i]);
    }
  }

  lemma ParsedIdsSnoc(parsed: seq<Result<Broker, MonitorError>>)
    requires |parsed| > 0 && parsed[|parsed| - 1].Success?
    ensures ParsedIds(parsed) == ParsedIds(parsed[..|parsed| - 1]) + {parsed[|parsed| - 1].value.id}
  {
    var last := |parsed| - 1;
    var prefix := parsed[..last];
    forall x | x in ParsedIds(parsed)
      ensures x in ParsedIds(prefix) + {parsed[last].value.id}
    {
      var i :| 0 <= i < |parsed| && parsed[i].Success? && parsed[i].value.id == x;
      if i < last {
        assert prefix[i] == parsed[i];
      }
    }
    forall x | x in ParsedIds(prefix)
      ensures x in ParsedIds(parsed)
    {
      var i :| 0 <= i < |prefix| && prefix[i].Success? && prefix[i].value.id == x;
      assert prefix[i] == parsed[i];
    }
  }

  /** When every entry parsed, the walk returns normally and adds exactly the parsed ids. */
  lemma {:induction false} LoadParsedPasses(m: Table, parsed: seq<Result<Broker, MonitorError>>)
    requires forall i :: 0 <= i < |parsed| ==> parsed[i].Success?
    ensures LoadParsed(m, parsed).outcome == Pass
    ensures LoadParsed(m, parsed).table.Keys == m.Keys + ParsedIds(parsed)
    decreases |parsed|
  {
    if parsed != [] {
      var last := |parsed| - 1;
      var prefix := parsed[..last];
      LoadParsedPasses(m, prefix);
      ParsedIdsSnoc(parsed);
    }
  }

  /** When every entry parsed, each entry's id maps to the broker parsed from
      the last entry with that id. */
  lemma {:induction false} LoadParsedStoresLast(m: Table, parsed: seq<Result<Broker, MonitorError>>, i: nat)
    requires forall k :: 0 <= k < |parsed| ==> parsed[k].Success?
    requires i < |parsed|
    requires forall k :: i < k < |parsed| ==> parsed[k].value.id != parsed[i].value.id
    ensures parsed[i].value.id in LoadParsed(m, parsed).table
    ensures LoadParsed(m, parsed).table[parsed[i].value.id] == parsed[i].value
    decreases |parsed|
  {
    var prefix := parsed[..|parsed| - 1];
    LoadParsedPasses(m, prefix);
    if i < |parsed| - 1 {
      assert prefix[i] == parsed[i];
      LoadParsedStoresLast(m, prefix, i);
    }
  }

  /** Recomputing the flags before a put is absorbed by the recompute after it. */
  lemma RecomputeAbsorbs(m: Table, b: Broker, controller: Option<int>)
    ensures Recompute(Put(Recompute(m, controller), b), controller) == Recompute(Put(m, b), controller)
  {
    if controller.Some? {
      var c := controller.value;
      var lhs := Recompute(Put(Recompute(m, controller), b), controller);
      var rhs := Recompute(Put(m, b), controller);
      assert lhs.Keys == rhs.Keys;
      forall id | id in lhs ensures lhs[id] == rhs[id] {
        if id != b.id {
          assert Put(Recompute(m, controller), b)[id] == SetControllerFlags(m, c)[id];
        }
      }
    }
  }

  /** A CHILD_ADDED whose entry parses to `b` puts `b` and recomputes the flags. */
  lemma AddedStep(x: Table, child: ChildData, controller: Option<int>, b: Broker)
    requires ParseBroker(child) == Success(b)
    ensures Step(x, ChildAdded(child), controller) == Applied(Recompute(Put(x, b), controller), Pass)
  {
  }

  /** Every entry of the snapshot parses. */
  predicate AllParse(snapshot: seq<ChildData>) {
    forall i :: 0 <= i < |snapshot| ==> ParseBroker(snapshot[i]).Success?
  }

  lemma ReplayLast(m: Table, events: seq<BrokerEvent>, controller: Option<int>)
    requires |events| > 0
    ensures Replay(m, events, controller)
         == Step(Replay(m, events[..|events| - 1], controller), events[|events| - 1], controller).table
  {
  }

  lemma SnapshotPrefix(snapshot: seq<ChildData>)
    requires |snapshot| > 0
    ensures ParseAll(snapshot)[..|snapshot| - 1] == ParseAll(snapshot[..|snapshot| - 1])
    ensures AddedEvents(snapshot)[..|snapshot| - 1] == AddedEvents(snapshot[..|snapshot| - 1])
  {
  }

  /** Loading a snapshot whose last entry parses to `b` is loading the rest, then putting `b`. */
  lemma LoadParsedLast(m: Table, parsed: seq<Result<Broker, MonitorError>>)
    requires |parsed| > 0
    requires forall i :: 0 <= i < |parsed| ==> parsed[i].Success?
    ensures LoadParsed(m, parsed).table == Put(LoadParsed(m, parsed[..|parsed| - 1]).table, parsed[|parsed| - 1].value)
  {
    LoadParsedPasses(m, parsed[..|parsed| - 1]);
  }

  /** Delivering one CHILD_ADDED per entry of a non-empty snapshot whose
      entries all parse loads the snapshot and recomputes the flags. */
  lemma {:induction false} ReplayedAddsLoad(m: Table, snapshot: seq<ChildData>, controller: Option<int>)
    requires |snapshot| > 0 && AllParse(snapshot)
    ensures Replay(m, AddedEvents(snapshot), controller) == Recompute(LoadParsed(m, ParseAll(snapshot)).table, controller)
    decreases |snapshot|
  {
    var n := |snapshot|;
    var prefix := snapshot[..n - 1];
    var parsed := ParseAll(snapshot);
    SnapshotPrefix(snapshot);
    var b := parsed[n - 1].value;
    LoadParsedLast(m, parsed);
    var loadedPrefix := LoadParsed(m, ParseAll(prefix)).table;
    var events := AddedEvents(snapshot);
    ReplayLast(m, events, controller);
    var replayedPrefix := Replay(m, AddedEvents(prefix), controller);
    AddedStep(replayedPrefix, snapshot[n - 1], controller, b);
    if n == 1 {
      assert AddedEvents(prefix) == [] && ParseAll(prefix) == [];
    } else {
      assert AllParse(prefix) by {
        forall i | 0 <= i < |prefix| ensures ParseBroker(prefix[i]).Success? {
          assert prefix[i] == snapshot[i];
        }
      }
      ReplayedAddsLoad(m, prefix, controller);
      RecomputeAbsorbs(loadedPrefix, b, controller);
    }
  }

  /** INITIALIZED with a non-empty snapshot whose entries all parse leaves the
      same table as delivering one CHILD_ADDED per entry. */
  lemma InitializedMatchesReplayedAdds(m: Table, snapshot: seq<ChildData>, controller: Option<int>)
    requires |snapshot| > 0 && AllParse(snapshot)
    ensures Step(m, Initialized(snapshot), controller) == Applied(Replay(m, AddedEvents(snapshot), controller), Pass)
  {
    var loaded := LoadParsed(m, ParseAll(snapshot));
    LoadParsedPasses(m, ParseAll(snapshot));
    assert Step(m, Initialized(snapshot), controller) == Applied(Recompute(loaded.table, controller), Pass);
    ReplayedAddsLoad(m, snapshot, controller);
  }
}

=== FILE: cluster_summary.dfy ===
/** getClusterSummary: one summary per topic, reduced pairwise into a cluster
    summary, whose topic count is then set to the number of topics. */
module ClusterSummary {
  import opened Wrappers
  import opened Topics

  /** ClusterSummaryVO without the preferred-replica percentage: the counts,
      the per-broker leader and preferred-leader partition counts, and the
      broker ids expected from the replica lists. */
  datatype Summary = Summary(
    topicCount: nat,
    partitionCount: nat,
    underReplicatedCount: nat,
    brokerLeaderPartitionCount: map<int, nat>,
    brokerPreferredLeaderPartitionCount: map<int, nat>,
    expectedBrokerIds: set<int>)

  /** A freshly constructed ClusterSummaryVO. */
  const EmptySummary := Summary(0, 0, 0, map[], map[], {})

  /** The two per-broker tallies. */
  datatype Role = Leader | PreferredLeader

  function RoleBroker(p: Partition, role: Role): Option<int> {
    match role
    case Leader => p.leader
    case PreferredLeader => p.preferredLeader
  }

  function Counts(s: Summary, role: Role): map<int, nat> {
    match role
    case Leader => s.brokerLeaderPartitionCount
    case PreferredLeader => s.brokerPreferredLeaderPartitionCount
  }

  /** The count a tally holds for broker `b`, zero when it has no entry. */
  function CountIn(m: map<int, nat>, b: int): nat {
    if b in m then m[b] else 0
  }

  /** addBrokerLeaderPartition / addBrokerPreferredLeaderPartition: add `n`
      partitions to broker `b`'s tally. */
  function Bump(m: map<int, nat>, b: int, n: nat): (r: map<int, nat>)
    ensures CountIn(r, b) == CountIn(m, b) + n
    ensures forall x :: x != b ==> CountIn(r, x) == CountIn(m, x)
  {
    m[b := CountIn(m, b) + n]
  }

  /** Adding every entry of `m2` into `m1`, as the reducer's forEach does. */
  function AddCounts(m1: map<int, nat>, m2: map<int, nat>): (r: map<int, nat>)
    ensures forall x :: CountIn(r, x) == CountIn(m1, x) + CountIn(m2, x)
  {
    map x | x in m1.Keys + m2.Keys :: CountIn(m1, x) + CountIn(m2, x)
  }

  /** The body of the per-partition forEach in the mapping step. */
  function AddPartition(s: Summary, p: Partition): Summary {
    var leaders := if p.leader.Some? then Bump(s.brokerLeaderPartitionCount, p.leader.value, 1)
                   else s.brokerLeaderPartitionCount;
    var preferred := if p.preferredLeader.Some? then Bump(s.brokerPreferredLeaderPartitionCount, p.preferredLeader.value, 1)
                     else s.brokerPreferredLeaderPartitionCount;
    s.(brokerLeaderPartitionCount := leaders,
       brokerPreferredLeaderPartitionCount := preferred,
       expectedBrokerIds := s.expectedBrokerIds + set j | 0 <= j < |p.replicas| :: p.replicas[j])
  }

  /** The per-partition forEach over a topic's partitions, in order. */
  function AddPartitions(s: Summary, ps: seq<Partition>): (r: Summary)
    ensures r.topicCount == s.topicCount && r.partitionCount == s.partitionCount
    ensures r.underReplicatedCount == s.underReplicatedCount
    ensures s.expectedBrokerIds <= r.expectedBrokerIds
    decreases |ps|
  {
    if ps == [] then s else AddPartition(AddPartitions(s, ps[..|ps| - 1]), ps[|ps| - 1])
  }

  /** TopicVO.getUnderReplicatedPartitions().size(). */
  function UnderReplicatedCount(ps: seq<Partition>): nat
    decreases |ps|
  {
    if ps == [] then 0
    else UnderReplicatedCount(ps[..|ps| - 1]) + (if ps[|ps| - 1].underReplicated then 1 else 0)
  }

  /** The mapping step: one topic's summary. */
  function TopicSummary(t: Topic): (r: Summary)
    ensures r.topicCount == 0
    ensures r.partitionCount == |t.partitions|
    ensures r.underReplicatedCount == UnderReplicatedCount(t.partitions)
    ensures forall role, b :: CountIn(Counts(r, role), b) == Tally(t.partitions, role, b)
    ensures r.expectedBrokerIds == ReplicaIds(t.partitions)
  {
    AddPartitionsAccumulates(EmptySummary.(partitionCount := |t.partitions|,
                                           underReplicatedCount := UnderReplicatedCount(t.partitions)),
                             t.partitions);
    AddPartitions(EmptySummary.(partitionCount := |t.partitions|,
                                underReplicatedCount := UnderReplicatedCount(t.partitions)),
                  t.partitions)
  }

  /** The reducer as written: the counts and tallies of `s2` are added into
      `s1`, and `s1`'s expected broker ids are kept as they are. */
  function Combine(s1: Summary, s2: Summary): (r: Summary)
    ensures r.partitionCount == s1.partitionCount + s2.partitionCount
    ensures r.underReplicatedCount == s1.underReplicatedCount + s2.underReplicatedCount
    ensures forall role, b :: CountIn(Counts(r, role), b) == CountIn(Counts(s1, role), b) + CountIn(Counts(s2, role), b)
    ensures r.expectedBrokerIds == s1.expectedBrokerIds
  {
    s1.(partitionCount := s1.partitionCount + s2.partitionCount,
        underReplicatedCount := s1.underReplicatedCount + s2.underReplicatedCount,
        brokerLeaderPartitionCount := AddCounts(s1.brokerLeaderPartitionCount, s2.brokerLeaderPartitionCount),
        brokerPreferredLeaderPartitionCount :=
          AddCounts(s1.brokerPreferredLeaderPartitionCount, s2.brokerPreferredLeaderPartitionCount))
  }

  /** The reducer with `s2`'s expected broker ids folded in as well. */
  function CombineMerging(s1: Summary, s2: Summary): Summary {
    Combine(s1, s2).(expectedBrokerIds := s1.expectedBrokerIds + s2.expectedBrokerIds)
  }

  /** Stream.reduce over the topics' summaries: a left fold, None for no
      topics. `merging` selects the corrected reducer. */
  function Reduce(ts: seq<Topic>, merging: bool): (r: Option<Summary>)
    ensures r.Some? <==> |ts| > 0
    decreases |ts|
  {
    if |ts| == 0 then None
    else if |ts| == 1 then Some(TopicSummary(ts[0]))
    else
      var s1 := Reduce(ts[..|ts| - 1], merging).value;
      var s2 := TopicSummary(ts[|ts| - 1]);
      Some(if merging then CombineMerging(s1, s2) else Combine(s1, s2))
  }

  /** getClusterSummary as written (orElseGet a fresh summary, then the topic count). */
  function GetClusterSummary(ts: seq<Topic>): (r: Summary)
    ensures r.topicCount == |ts|
    ensures ts == [] ==> r == EmptySummary
  {
    var s := match Reduce(ts, false) case None => EmptySummary case Some(s) => s;
    s.(topicCount := |ts|)
  }

  /** getClusterSummary with the corrected reducer. */
  function GetClusterSummaryCorrected(ts: seq<Topic>): (r: Summary)
    ensures r.topicCount == |ts|
    ensures ts == [] ==> r == EmptySummary
  {
    var s := match Reduce(ts, true) case None => EmptySummary case Some(s) => s;
    s.(topicCount := |ts|)
  }

  // ---------------------------------------------------------------------------
  // Reference definitions over all partitions of all topics
  // ---------------------------------------------------------------------------

  /** Every partition of every topic, topic by topic. */
  function AllPartitions(ts: seq<Topic>): (r: seq<Partition>)
    decreases |ts|
  {
    if ts == [] then [] else AllPartitions(ts[..|ts| - 1]) + ts[|ts| - 1].partitions
  }

  /** How many of the partitions have broker `b` in the given role. */
  function Tally(ps: seq<Partition>, role: Role, b: int): nat
    decreases |ps|
  {
    if ps == [] then 0
    else Tally(ps[..|ps| - 1], role, b) + (if RoleBroker(ps[|ps| - 1], role) == Some(b) then 1 else 0)
  }

  /** Every broker id named in some partition's replica list. */
  function ReplicaIds(ps: seq<Partition>): set<int> {
    set i, j | 0 <= i < |ps| && 0 <= j < |ps[i].replicas| :: ps[i].replicas[j]
  }

  lemma {:induction false} TallyAppend(ps: seq<Partition>, qs: seq<Partition>, role: Role, b: int)
    ensures Tally(ps + qs, role, b) == Tally(ps, role, b) + Tally(qs, role, b)
    decreases |qs|
  {
    if qs != [] {
      assert (ps + qs)[..|ps + qs| - 1] == ps + qs[..|qs| - 1];
      TallyAppend(ps, qs[..|qs| - 1], role, b);
    } else {
      assert ps + qs == ps;
    }
  }

  lemma {:induction false} UnderReplicatedAppend(ps: seq<Partition>, qs: seq<Partition>)
    ensures UnderReplicatedCount(ps + qs) == UnderReplicatedCount(ps) + UnderReplicatedCount(qs)
    decreases |qs|
  {
    if qs != [] {
      assert (ps + qs)[..|ps + qs| - 1] == ps + qs[..|qs| - 1];
      UnderReplicatedAppend(ps, qs[..|qs| - 1]);
    } else {
      assert ps + qs == ps;
    }
  }

  lemma ReplicaIdsAppend(ps: seq<Partition>, qs: seq<Partition>)
    ensures ReplicaIds(ps + qs) == ReplicaIds(ps) + ReplicaIds(qs)
  {
    var all := ps + qs;
    forall x | x in ReplicaIds(all) ensures x in ReplicaIds(ps) + ReplicaIds(qs) {
      var i, j :| 0 <= i < |all| && 0 <= j < |all[i].replicas| && all[i].replicas[j] == x;
      if i >= |ps| {
        assert qs[i - |ps|] == all[i];
      } else {
        assert ps[i] == all[i];
      }
    }
    forall x | x in ReplicaIds(ps) + ReplicaIds(qs) ensures x in ReplicaIds(all) {
      if x in ReplicaIds(ps) {
        var i, j :| 0 <= i < |ps| && 0 <= j < |ps[i].replicas| && ps[i].replicas[j] == x;
        assert all[i] == ps[i];
      } else {
        var i, j :| 0 <= i < |qs| && 0 <= j < |qs[i].replicas| && qs[i].replicas[j] == x;
        assert all[|ps| + i] == qs[i];
      }
    }
  }

  // ---------------------------------------------------------------------------
  // What the summary holds
  // ---------------------------------------------------------------------------

  /** Walking a topic's partitions adds each partition to the tallies of its
      leader and preferred leader, adds its replicas to the expected broker
      ids, and leaves the counts alone. */
  lemma {:induction false} AddPartitionsAccumulates(s: Summary, ps: seq<Partition>)
    ensures AddPartitions(s, ps).topicCount == s.topicCount
    ensures AddPartitions(s, ps).partitionCount == s.partitionCount
    ensures AddPartitions(s, ps).underReplicatedCount == s.underReplicatedCount
    ensures forall role, b :: CountIn(Counts(AddPartitions(s, ps), role), b) == CountIn(Counts(s, role), b) + Tally(ps, role, b)
    ensures AddPartitions(s, ps).expectedBrokerIds == s.expectedBrokerIds + ReplicaIds(ps)
    decreases |ps|
  {
    if ps != [] {
      var init := ps[..|ps| - 1];
      var p := ps[|ps| - 1];
      AddPartitionsAccumulates(s, init);
      assert ps == init + [p];
      ReplicaIdsAppend(init, [p]);
      assert ReplicaIds([p]) == set j | 0 <= j < |p.replicas| :: p.replicas[j] by {
        forall x | x in ReplicaIds([p]) ensures x in p.replicas {
          var i, j :| 0 <= i < 1 && 0 <= j < |[p][i].replicas| && [p][i].replicas[j] == x;
        }
        forall x | x in p.replicas ensures x in ReplicaIds([p]) {
          var j :| 0 <= j < |p.replicas| && p.replicas[j] == x;
          assert [p][0].replicas[j] == x;
        }
      }
    }
  }

  /** The reduction of a non-empty topic list: partition and under-replicated
      counts summed over all topics, and each broker's tallies counted over all
      partitions of all topics. */
  lemma {:induction false} ReduceCounts(ts: seq<Topic>, merging: bool)
    requires |ts| > 0
    ensures Reduce(ts, merging).value.topicCount == 0
    ensures Reduce(ts, merging).value.partitionCount == |AllPartitions(ts)|
    ensures Reduce(ts, merging).value.underReplicatedCount == UnderReplicatedCount(AllPartitions(ts))
    ensures forall role, b :: CountIn(Counts(Reduce(ts, merging).value, role), b) == Tally(AllPartitions(ts), role, b)
    decreases |ts|
  {
    var init := ts[..|ts| - 1];
    var t := ts[|ts| - 1];
    assert AllPartitions(ts) == AllPartitions(init) + t.partitions;
    if |ts| == 1 {
      assert AllPartitions(ts) == t.partitions;
    } else {
      ReduceCounts(init, merging);
      UnderReplicatedAppend(AllPartitions(init), t.partitions);
      forall role, b ensures CountIn(Counts(Reduce(ts, merging).value, role), b) == Tally(AllPartitions(ts), role, b) {
        TallyAppend(AllPartitions(init), t.partitions, role, b);
      }
    }
  }

  /** The expected broker ids of the reduction: those of the first topic alone
      with the reducer as written, those of all topics with the corrected one. */
  lemma {:induction false} ReduceExpectedBrokerIds(ts: seq<Topic>, merging: bool)
    requires |ts| > 0
    ensures !merging ==> Reduce(ts, merging).value.expectedBrokerIds == ReplicaIds(ts[0].partitions)
    ensures merging ==> Reduce(ts, merging).value.expectedBrokerIds == ReplicaIds(AllPartitions(ts))
    decreases |ts|
  {
    var init := ts[..|ts| - 1];
    var t := ts[|ts| - 1];
    assert AllPartitions(ts) == AllPartitions(init) + t.partitions;
    if |ts| == 1 {
      assert AllPartitions(ts) == t.partitions;
    } else {
      ReduceExpectedBrokerIds(init, merging);
      assert init[0] == ts[0];
      ReplicaIdsAppend(AllPartitions(init), t.partitions);
    }
  }

  /** getClusterSummary as written: the topic count, the summed partition and
      under-replicated counts and the per-broker tallies over all topics, but
      only the first topic's replica ids. */
  lemma ClusterSummaryAsWritten(ts: seq<Topic>)
    ensures GetClusterSummary(ts).topicCount == |ts|
    ensures GetClusterSummary(ts).partitionCount == |AllPartitions(ts)|
    ensures GetClusterSummary(ts).underReplicatedCount == UnderReplicatedCount(AllPartitions(ts))
    ensures forall role, b :: CountIn(Counts(GetClusterSummary(ts), role), b) == Tally(AllPartitions(ts), role, b)
    ensures GetClusterSummary(ts).expectedBrokerIds == if ts == [] then {} else ReplicaIds(ts[0].partitions)
  {
    if ts != [] {
      ReduceCounts(ts, false);
      ReduceExpectedBrokerIds(ts, false);
    }
  }

  /** getClusterSummary with the corrected reducer: as above, and the expected
      broker ids are the replicas of every partition of every topic. */
  lemma ClusterSummaryCorrected(ts: seq<Topic>)
    ensures GetClusterSummaryCorrected(ts).topicCount == |ts|
    ensures GetClusterSummaryCorrected(ts).partitionCount == |AllPartitions(ts)|
    ensures GetClusterSummaryCorrected(ts).underReplicatedCount == UnderReplicatedCount(AllPartitions(ts))
    ensures forall role, b :: CountIn(Counts(GetClusterSummaryCorrected(ts), role), b) == Tally(AllPartitions(ts), role, b)
    ensures GetClusterSummaryCorrected(ts).expectedBrokerIds == ReplicaIds(AllPartitions(ts))
  {
    if ts != [] {
      ReduceCounts(ts, true);
      ReduceExpectedBrokerIds(ts, true);
    }
  }

  /** Two topics with one partition each, replicated on broker 1 and on
      broker 2: broker 2 is a replica, but the summary as written does not
      expect it. */
  lemma LaterTopicReplicaIdsDropped()
    ensures var ts := [Topic("a", [Partition(0, Some(1), Some(1), [1], false)]),
                       Topic("b", [Partition(0, Some(2), Some(2), [2], false)])];
            2 in ReplicaIds(AllPartitions(ts)) && 2 !in GetClusterSummary(ts).expectedBrokerIds
  {
    var ts := [Topic("a", [Partition(0, Some(1), Some(1), [1], false)]),
               Topic("b", [Partition(0, Some(2), Some(2), [2], false)])];
    ClusterSummaryAsWritten(ts);
    ClusterSummaryCorrected(ts);
    assert ReplicaIds(ts[0].partitions) == {1} by {
      forall x | x in ReplicaIds(ts[0].partitions) ensures x == 1 {
        var i, j :| 0 <= i < 1 && 0 <= j < |ts[0].partitions[i].replicas| && ts[0].partitions[i].replicas[j] == x;
      }
      assert ts[0].partitions[0].replicas[0] == 1;
    }
    assert AllPartitions(ts) == ts[0].partitions + ts[1].partitions by {
      assert ts[..1] == [ts[0]];
      assert ts[..1][..0] == [];
    }
    assert AllPartitions(ts)[1].replicas[0] == 2;
  }
}

=== FILE: errors.dfy ===
/** The exceptions the monitor lets escape, as values. */
module MonitorErrors {

  datatype MonitorError =
    /** NotInitializedException: a read before all four caches reported INITIALIZED. */
    | NotInitialized
    /** BrokerNotFoundException "No brokers available to select from". */
    | NoBrokersAvailable
    /** BrokerNotFoundException "Broker <id> is not available". */
    | BrokerNotAvailable(id: int)
    /** NumberFormatException from Integer.parseInt on the given text. */
    | NumberFormat(text: string)
    /** The payload of the node at this path could not be decoded (an IOException rethrown). */
    | MalformedPayload(path: string)
    /** The NPE removeBroker raises when it logs the id of a broker that was not in the table. */
    | NullBroker(id: int)
}

=== FILE: monitor.dfy ===
/** CuratorKafkaMonitor's own state: the broker table it keeps in step with the
    broker path cache, the countdown that gates every read until the four
    caches have reported INITIALIZED, and the reads built on them. */
module Monitor {
  import opened Wrappers
  import opened MonitorErrors
  import opened BrokerTable
  import opened Topics
  import opened BrokerPath

  /** BrokerChannel.forBroker(host, port): where a request is sent. */
  datatype Channel = Channel(host: string, port: int)

  function ChannelFor(b: Broker): Channel {
    Channel(b.host, b.port)
  }

  /** The number of caches whose INITIALIZED event the monitor waits for. */
  const CacheCount := 4

  /** validateInitialized: reads are refused while any cache is still loading. */
  function Gate(counter: int): (r: Outcome)
    ensures r.Pass? <==> counter <= 0
    ensures r.Fail? ==> r.error == NotInitialized
  {
    if counter > 0 then Fail(NotInitialized) else Pass
  }

  class CuratorKafkaMonitor {
    /** brokerCache: broker id to broker, ordered by id. */
    var brokerCache: map<int, Broker>
    /** cacheInitCounter: caches that have not yet reported INITIALIZED. */
    var cacheInitCounter: int

    ghost predicate Valid()
      reads this
    {
      KeysMatchIds(brokerCache)
    }

    /** The part of start() that sets up the monitor's own state: an empty
        broker table and the countdown set to the number of caches. */
    constructor ()
      ensures Valid()
      ensures brokerCache == map[]
      ensures cacheInitCounter == CacheCount
    {
      brokerCache := map[];
      cacheInitCounter := CacheCount;
    }

    /** validateInitialized(). */
    function ValidateInitialized(): (r: Outcome)
      reads this
      ensures r.Pass? <==> cacheInitCounter <= 0
      ensures r.Fail? ==> r.error == NotInitialized
    {
      Gate(cacheInitCounter)
    }

    /** One of the four INITIALIZED listeners: decrementAndGet, unconditionally. */
    method CacheInitialized()
      modifies this`cacheInitCounter
      ensures cacheInitCounter == old(cacheInitCounter) - 1
      ensures old(ValidateInitialized()).Pass? ==> ValidateInitialized().Pass?
    {
      cacheInitCounter := cacheInitCounter - 1;
    }

    /** addBroker: store `b` under its id and return the broker it replaced. */
    method AddBroker(b: Broker) returns (previous: Option<Broker>)
      requires Valid()
      modifies this`brokerCache
      ensures Valid()
      ensures brokerCache == Put(old(brokerCache), b)
      ensures previous.None? <==> b.id !in old(brokerCache)
      ensures previous.Some? ==> previous.value == old(brokerCache)[b.id]
    {
      previous := if b.id in brokerCache then Some(brokerCache[b.id]) else None;
      brokerCache := brokerCache[b.id := b];
    }

    /** removeBroker: delete the id and return the broker it held; logging the
        id of a broker that was not there throws, with the table unchanged. */
    method RemoveBroker(id: int) returns (r: Result<Broker, MonitorError>)
      requires Valid()
      modifies this`brokerCache
      ensures Valid()
      ensures brokerCache == old(brokerCache) - {id}
      ensures id in old(brokerCache) ==> r == Success(old(brokerCache)[id])
      ensures id !in old(brokerCache) ==> r == Failure(NullBroker(id))
    {
      if id in brokerCache {
        r := Success(brokerCache[id]);
      } else {
        r := Failure(NullBroker(id));
      }
      brokerCache := brokerCache - {id};
    }

    /** updateController(int): walk the brokers and set each one's flag. */
    method UpdateControllerTo(c: int)
      requires Valid()
      modifies this`brokerCache
      ensures Valid()
      ensures brokerCache == SetControllerFlags(old(brokerCache), c)
    {
      ghost var start := brokerCache;
      var pending := brokerCache.Keys;
      while |pending| > 0
        invariant pending <= start.Keys
        invariant brokerCache.Keys == start.Keys
        invariant forall id :: id in pending ==> brokerCache[id] == start[id]
        invariant forall id :: id in start && id !in pending ==>
                    brokerCache[id] == start[id].(isController := start[id].id == c)
        decreases |pending|
      {
        HasElement(pending);
        var id :| id in pending;
        var b := brokerCache[id];
        brokerCache := brokerCache[id := b.(isController := b.id == c)];
        pending := pending - {id};
      }
      forall id | id in brokerCache ensures brokerCache[id] == SetControllerFlags(start, c)[id] {
      }
      assert brokerCache.Keys == SetControllerFlags(start, c).Keys;
    }

    /** updateController(): `controller` is the controller node's decoded
        broker id, None when the node is absent or its payload does not decode. */
    method UpdateController(controller: Option<int>)
      requires Valid()
      modifies this`brokerCache
      ensures Valid()
      ensures brokerCache == Recompute(old(brokerCache), controller)
    {
      if controller.Some? {
        UpdateControllerTo(controller.value);
      }
    }

    /** The CHILD_REMOVED branch of childEvent, then updateController(). */
    method OnChildRemoved(child: ChildData, controller: Option<int>) returns (outcome: Outcome)
      requires Valid()
      modifies this`brokerCache
      ensures Valid()
      ensures Applied(brokerCache, outcome) == RemoveChild(old(brokerCache), child, controller)
    {
      var id := BrokerId(child.path);
      if id.Failure? {
        return Fail(id.error);
      }
      var removed := RemoveBroker(id.value);
      if removed.Failure? {
        return Fail(removed.error);
      }
      UpdateController(controller);
      outcome := Pass;
    }

    /** The CHILD_ADDED / CHILD_UPDATED branch of childEvent, then updateController(). */
    method OnChildAdded(child: ChildData, controller: Option<int>) returns (outcome: Outcome)
      requires Valid()
      modifies this`brokerCache
      ensures Valid()
      ensures Applied(brokerCache, outcome) == AddChild(old(brokerCache), child, controller)
    {
      var parsed := ParseBroker(child);
      if parsed.Failure? {
        return Fail(parsed.error);
      }
      var _ := AddBroker(parsed.value);
      UpdateController(controller);
      outcome := Pass;
    }

    /** The INITIALIZED branch of childEvent: parse and add the cache's current
        entries one by one, then updateController(). */
    method OnInitialized(snapshot: seq<ChildData>, controller: Option<int>) returns (outcome: Outcome)
      requires Valid()
      modifies this`brokerCache
      ensures Valid()
      ensures Applied(brokerCache, outcome) == LoadSnapshot(old(brokerCache), snapshot, controller)
    {
      ghost var before := brokerCache;
      ghost var all := ParseAll(snapshot);
      var i := 0;
      while i < |snapshot|
        invariant 0 <= i <= |snapshot|
        invariant LoadParsed(before, all[..i]) == Applied(brokerCache, Pass)
        invariant Valid()
      {
        assert all[..i + 1][..i] == all[..i];
        var parsed := ParseBroker(snapshot[i]);
        if parsed.Failure? {
          LoadParsedStopsAtFailure(before, all, i + 1);
          return Fail(parsed.error);
        }
        var _ := AddBroker(parsed.value);
        i := i + 1;
      }
      assert all[..i] == all;
      UpdateController(controller);
      outcome := Pass;
    }

    /** BrokerListener.childEvent: the branch for the event, then
        updateController() unless the branch threw. */
    method ChildEvent(e: BrokerEvent, controller: Option<int>) returns (outcome: Outcome)
      requires Valid()
      modifies this`brokerCache
      ensures Valid()
      ensures Applied(brokerCache, outcome) == Step(old(brokerCache), e, controller)
    {
      match e {
        case ChildRemoved(child) =>
          outcome := OnChildRemoved(child, controller);
        case ChildAdded(child) =>
          outcome := OnChildAdded(child, controller);
        case ChildUpdated(child) =>
          outcome := OnChildAdded(child, controller);
        case Initialized(snapshot) =>
          outcome := OnInitialized(snapshot, controller);
        case ConnectionChanged =>
          UpdateController(controller);
          outcome := Pass;
      }
    }

    /** getBrokers: the gate, then the brokers in ascending id order (the
        values of the TreeMap). */
    function GetBrokers(): (r: Result<seq<Broker>, MonitorError>)
      reads this
      ensures r.Failure? <==> cacheInitCounter > 0
      ensures r.Failure? ==> r.error == NotInitialized
      ensures r.Success? ==> |r.value| == |brokerCache|
      ensures r.Success? ==> forall id :: id in brokerCache ==> brokerCache[id] in r.value
      ensures r.Success? ==> forall b :: b in r.value ==> exists id :: id in brokerCache && brokerCache[id] == b
      ensures Valid() && r.Success? ==> forall b :: b in r.value ==> b.id in brokerCache && brokerCache[b.id] == b
      ensures Valid() && r.Success? ==> forall i, j :: 0 <= i < j < |r.value| ==> r.value[i].id < r.value[j].id
    {
      if ValidateInitialized().Fail? then Failure(NotInitialized)
      else
        InIdOrderMembers(brokerCache);
        InIdOrderSorted(brokerCache);
        Success(InIdOrder(brokerCache))
    }

    /** getBroker: the gate, then the broker under `id` if there is one. */
    function GetBroker(id: int): (r: Result<Option<Broker>, MonitorError>)
      reads this
      ensures r.Failure? <==> cacheInitCounter > 0
      ensures r.Failure? ==> r.error == NotInitialized
      ensures r.Success? ==> (r.value.Some? <==> id in brokerCache)
      ensures r.Success? ==> r.value == (if id in brokerCache then Some(brokerCache[id]) else None)
      ensures Valid() && r.Success? && r.value.Some? ==> r.value.value.id == id
    {
      if ValidateInitialized().Fail? then Failure(NotInitialized)
      else if id in brokerCache then Success(Some(brokerCache[id]))
      else Success(None)
    }

    /** randomBroker: any id in the table (the source takes the head of a
        shuffled copy of the ids), or None when the table is empty. */
    method RandomBroker() returns (r: Option<int>)
      ensures r.None? <==> brokerCache == map[]
      ensures r.Some? ==> r.value in brokerCache
    {
      if |brokerCache| > 0 {
        HasElement(brokerCache.Keys);
        var id :| id in brokerCache;
        r := Some(id);
      } else {
        r := None;
      }
    }

    /** brokerChannel: the requested broker, or a random one when none is
        requested, looked up through getBroker. */
    method BrokerChannel(requested: Option<int>) returns (r: Result<Channel, MonitorError>)
      ensures requested.None? && brokerCache == map[] ==> r == Failure(NoBrokersAvailable)
      ensures (requested.Some? || brokerCache != map[]) && cacheInitCounter > 0 ==> r == Failure(NotInitialized)
      ensures requested.Some? && cacheInitCounter <= 0 ==>
                r == (if requested.value in brokerCache then Success(ChannelFor(brokerCache[requested.value]))
                      else Failure(BrokerNotAvailable(requested.value)))
      ensures requested.None? && brokerCache != map[] && cacheInitCounter <= 0 ==>
                r.Success? && exists id :: id in brokerCache && r.value == ChannelFor(brokerCache[id])
    {
      var id: int;
      if requested.None? {
        var chosen := RandomBroker();
        if chosen.None? {
          return Failure(NoBrokersAvailable);
        }
        id := chosen.value;
      } else {
        id := requested.value;
      }
      var found := GetBroker(id);
      if found.Failure? {
        return Failure(found.error);
      }
      if found.value.None? {
        return Failure(BrokerNotAvailable(id));
      }
      r := Success(ChannelFor(found.value.value));
    }

    /** getTopics: the gate, a channel to a random broker, then the topics the
        metadata request returned (`fetched`), sorted by name. */
    method GetTopics(fetched: Result<seq<Topic>, MonitorError>) returns (r: Result<seq<Topic>, MonitorError>)
      ensures cacheInitCounter > 0 ==> r == Failure(NotInitialized)
      ensures cacheInitCounter <= 0 && brokerCache == map[] ==> r == Failure(NoBrokersAvailable)
      ensures cacheInitCounter <= 0 && brokerCache != map[] && fetched.Failure? ==> r == Failure(fetched.error)
      ensures cacheInitCounter <= 0 && brokerCache != map[] && fetched.Success? ==> r.Success?
      ensures r.Success? ==> fetched.Success? && SortedByName(r.value) && multiset(r.value) == multiset(fetched.value)
      ensures r.Success? ==> forall i, j :: 0 <= i < j < |r.value| ==> CompareNames(r.value[i].name, r.value[j].name) <= 0
    {
      if ValidateInitialized().Fail? {
        return Failure(NotInitialized);
      }
      var channel := BrokerChannel(None);
      if channel.Failure? {
        return Failure(channel.error);
      }
      if fetched.Failure? {
        return Failure(fetched.error);
      }
      var sorted := SortByName(fetched.value);
      forall i, j | 0 <= i < j < |sorted| ensures CompareNames(sorted[i].name, sorted[j].name) <= 0 {
        SortedByNameGlobal(sorted, i, j);
      }
      r := Success(sorted);
    }

    /** getTopic: the gate, a channel to a random broker, then the entry for
        `name` in the metadata the request returned (`fetched`). */
    method GetTopic(name: string, fetched: Result<map<string, Topic>, MonitorError>)
      returns (r: Result<Option<Topic>, MonitorError>)
      ensures cacheInitCounter > 0 ==> r == Failure(NotInitialized)
      ensures cacheInitCounter <= 0 && brokerCache == map[] ==> r == Failure(NoBrokersAvailable)
      ensures cacheInitCounter <= 0 && brokerCache != map[] && fetched.Failure? ==> r == Failure(fetched.error)
      ensures cacheInitCounter <= 0 && brokerCache != map[] && fetched.Success? ==> r.Success?
      ensures r.Success? ==> fetched.Success? && (r.value.Some? <==> name in fetched.value)
      ensures r.Success? && r.value.Some? ==> r.value.value == fetched.value[name]
    {
      if ValidateInitialized().Fail? {
        return Failure(NotInitialized);
      }
      var channel := BrokerChannel(None);
      if channel.Failure? {
        return Failure(channel.error);
      }
      if fetched.Failure? {
        return Failure(fetched.error);
      }
      r := Success(if name in fetched.value then Some(fetched.value[name]) else None);
    }
  }
}

=== FILE: topics.dfy ===
/** Topics and partitions as the monitor's read side sees them, and the
    ordering getTopics puts them in (String.compareTo on their names). */
module Topics {
  import opened Wrappers

  /** A partition of a topic: leader and preferred leader are broker ids
      (None where the Java reference is null), replicas the broker ids that
      hold a copy, and whether the partition is under-replicated. */
  datatype Partition = Partition(
    id: int,
    leader: Option<int>,
    preferredLeader: Option<int>,
    replicas: seq<int>,
    underReplicated: bool)

  datatype Topic = Topic(name: string, partitions: seq<Partition>)

  /** String.compareTo: the difference of the first differing characters,
      otherwise the difference of the lengths. */
  function CompareNames(a: string, b: string): (r: int)
    ensures r == 0 <==> a == b
    ensures |a| <= |b| && a == b[..|a|] ==> r <= 0
  {
    if a == [] || b == [] then |a| - |b|
    else if a[0] != b[0] then (a[0] as int) - (b[0] as int)
    else
      assert a == [a[0]] + a[1..] && b == [b[0]] + b[1..];
      CompareNames(a[1..], b[1..])
  }

  /** Swapping the arguments of compareTo negates the result. */
  lemma {:induction false} CompareNamesAntisymmetric(a: string, b: string)
    ensures CompareNames(b, a) == -CompareNames(a, b)
  {
    if a != [] && b != [] && a[0] == b[0] {
      CompareNamesAntisymmetric(a[1..], b[1..]);
    }
  }

  /** compareTo is transitive, as Comparable requires. */
  lemma {:induction false} CompareNamesTransitive(a: string, b: string, c: string)
    requires CompareNames(a, b) <= 0 && CompareNames(b, c) <= 0
    ensures CompareNames(a, c) <= 0
  {
    if a != [] && b != [] && c != [] && a[0] == b[0] && b[0] == c[0] {
      CompareNamesTransitive(a[1..], b[1..], c[1..]);
    }
  }

  /** Each topic's name is no greater than the next one's. */
  predicate SortedByName(ts: seq<Topic>) {
    forall i :: 0 < i < |ts| ==> CompareNames(ts[i - 1].name, ts[i].name) <= 0
  }

  /** In a list sorted by name, every topic's name is no greater than that
      of any later topic, not only the next one. */
  lemma {:induction false} SortedByNameGlobal(ts: seq<Topic>, i: nat, j: nat)
    requires SortedByName(ts) && i < j < |ts|
    ensures CompareNames(ts[i].name, ts[j].name) <= 0
    decreases j - i
  {
    if i + 1 < j {
      SortedByNameGlobal(ts, i, j - 1);
      CompareNamesTransitive(ts[i].name, ts[j - 1].name, ts[j].name);
    }
  }

  /** Inserts `t` before the first topic whose name is not smaller than its own. */
  function InsertByName(t: Topic, s: seq<Topic>): (r: seq<Topic>)
    requires SortedByName(s)
    ensures SortedByName(r)
    ensures multiset(r) == multiset(s) + multiset{t}
    ensures r[0] == t || (s != [] && r[0] == s[0])
  {
    if s == [] then [t]
    else if CompareNames(t.name, s[0].name) <= 0 then [t] + s
    else
      CompareNamesAntisymmetric(t.name, s[0].name);
      assert s == [s[0]] + s[1..];
      [s[0]] + InsertByName(t, s[1..])
  }

  /** Sorting by name, as Stream.sorted(Comparator.comparing(TopicVO::getName)) does. */
  function SortByName(ts: seq<Topic>): (r: seq<Topic>)
    ensures SortedByName(r)
    ensures multiset(r) == multiset(ts)
  {
    if ts == [] then []
    else
      assert ts == [ts[0]] + ts[1..];
      InsertByName(ts[0], SortByName(ts[1..]))
  }
}

=== FILE: wrappers.dfy ===
/** Option and Result, the two failure-carrying shapes the model uses for
    Java's nullable values and thrown exceptions. */
module Wrappers {

  datatype Option<+T> = None | Some(value: T)

  datatype Result<+T, +E> = Success(value: T) | Failure(error: E)
}
